=== FILE: README.md ===
# Audio ad guru: verified model of the duration estimate, the generation gate and the TTS proxy

This project models the parts of the audio-ad generator that carry checkable logic:

- **check-script-duration.** The edge function counts the words of a script and estimates how long it takes to read aloud. It does this in three steps: `trim`, `split(/\s+/)` and a filter for empty pieces. The rate is 150 words per minute, stretched by a 15 % pause buffer. The result is rounded to a tenth of a second. Its request handler rejects a falsy `script` with status 400.
- **The duration-fit policy of the AudioGenerator component.** An estimate fits the chosen ad length (15, 30, 45 or 60 seconds) unless it exceeds it. This verdict chooses the alert, disables the "Generate Audio" button and stops `handleGenerateAudio`.
- **The AudioGenerator component as a state machine.**
  - `fetchVoices`, `handleVoiceChange` (with the duration check it starts) and `handleGenerateAudio` are each one atomic transition over a state record.
  - Each edge-function result is an input (`Ok(payload)` or `Err(message)`).
  - Each transition reports the calls it makes and the toasts it raises.
  - Object URLs are opaque tokens. The model tracks which of them are still live, meaning created and not revoked.
- **generate-audio.** This edge function proxies to the text-to-speech provider. Its handler is modelled as an ordered decision procedure:
  1. the OPTIONS short-circuit;
  2. the required-field check (`!script?.trim() || !voiceId?.trim()`);
  3. the API key check;
  4. the classification of the provider's reply: 200 with the audio as base64, 403 `FREE_USER_RESTRICTED`, or 500 with a message.

  The byte-to-binary-string loop is modelled both as a function and as the loop itself. `btoa` is modelled as the base64 encoding of section 4 of RFC 4648, together with a decoder. The proof shows that base64-decoding the reply gives back the bytes the provider delivered.

Modules: `Common` (shared types), `Text` (whitespace, `trim`, `split`, word count, `includes`), `Estimate`, `DurationPolicy`, `DurationService`, `Base64`, `AudioProxy`, `AudioGenerator`.

Modelling choices:

- **Durations are whole tenths of a second.** The exact value `w / 150 * 1.15 * 60 * 10` equals `46w / 10`. `46w` is always even, so `Math.round` never meets a half-way tie, and the estimate is `(46w + 5) / 10` tenths. `DurationTenths` proves that this integer is within 0.4 of the exact rational value.
- **Whitespace is the ECMAScript set.** It covers WhiteSpace and LineTerminator, which is the set both `\s` and `trim` use. The word count is modelled literally: the empty first and last pieces of `split` are kept, then filtered. It is proved equal to an independent count of maximal non-whitespace runs.
- **The rate is fixed.** It is 150 words per minute with a 1.15 pause buffer (`check-script-duration/index.ts:10,18`).
- **The target is a typed value.** It is one of the values the duration selector offers (`ScriptForm.tsx`), and `parseInt(duration)` of those strings is the number itself.
- **Error messages of the JavaScript engine are opaque.** These are invalid JSON and `trim` called on a non-string. Both are represented as `EngineError`.

## Model

| member | source | states |
|---|---|---|
| Text.Trim | supabase/functions/check-script-duration/index.ts:15 | `trim` gives the text between a whitespace prefix and a whitespace suffix, with no whitespace at either end of the result; the result is empty exactly for all-whitespace input |
| Text.SplitWs | supabase/functions/check-script-duration/index.ts:15 | `split(/\s+/)` yields at least one piece and no piece contains whitespace |
| Text.NonEmpty | supabase/functions/check-script-duration/index.ts:15 | the filter keeps exactly the non-empty pieces, each as many times as it occurs, so `.length` counts them all |
| Text.Words | supabase/functions/check-script-duration/index.ts:15 | every counted word is non-empty and free of whitespace |
| Text.SplitCountsRuns | supabase/functions/check-script-duration/index.ts:15 | the non-empty pieces of the split are as many as the maximal non-whitespace runs |
| Text.TrimKeepsRuns | supabase/functions/check-script-duration/index.ts:15 | trimming never changes the number of runs |
| Text.WordCount | supabase/functions/check-script-duration/index.ts:15 | the `.length` of the trimmed, split and filtered script equals the number of maximal runs of non-whitespace characters |
| Text.WordCountZero | supabase/functions/check-script-duration/index.ts:15 | the word count is 0 exactly for empty and whitespace-only text |
| Text.RunCountAppend | supabase/functions/check-script-duration/index.ts:15 | texts glued at a whitespace boundary add their runs |
| Text.WordCountIgnoresPadding | supabase/functions/check-script-duration/index.ts:15 | leading and trailing whitespace do not change the word count |
| Text.WordCountJoin | supabase/functions/check-script-duration/index.ts:15 | two texts joined by whitespace have the sum of their word counts |
| Text.WordCountGapWidth | supabase/functions/check-script-duration/index.ts:15 | the width of the whitespace gap between two texts does not matter |
| Text.Contains | supabase/functions/generate-audio/index.ts:55 | `includes` holds exactly when the pattern occurs at some position, the empty pattern included |
| Estimate.DurationTenths | supabase/functions/check-script-duration/index.ts:18-21 | the estimate is `Math.round` of the exact value (within 0.5) and always within 0.4 of it, so no half-tenth tie arises |
| Estimate.EstimateTenths | supabase/functions/check-script-duration/index.ts:13-22 | the estimate of a script is the rounded duration of its number of non-whitespace runs |
| Estimate.DurationPerWord | supabase/functions/check-script-duration/index.ts:18-21 | each extra word adds 0.4 or 0.5 seconds |
| Estimate.DurationMonotone | supabase/functions/check-script-duration/index.ts:18-21 | the estimate is non-decreasing, and strictly increasing, in the word count |
| Estimate.EstimateZero | supabase/functions/check-script-duration/index.ts:15-21 | the estimate is 0 exactly for empty and whitespace-only scripts |
| Estimate.EstimateIgnoresPadding | supabase/functions/check-script-duration/index.ts:15 | adding whitespace around a script does not change its estimate |
| Estimate.EstimateGapWidth | supabase/functions/check-script-duration/index.ts:15 | widening a whitespace run does not change the estimate |
| Estimate.EstimateGrowsWithText | supabase/functions/check-script-duration/index.ts:15-21 | appending text after whitespace never shortens the estimate |
| Estimate.EstimateDoubles | supabase/functions/check-script-duration/index.ts:15-21 | a script read twice is estimated at twice its estimate, up to one tenth |
| DurationService.Handle | supabase/functions/check-script-duration/index.ts:24-67 | preflight gives the CORS reply; a falsy script gives 400 "Script is required"; any non-empty string is estimated; a truthy non-string or an unparsable body gives 400 with the engine error, and only those do |
| DurationService.WhitespaceScriptAccepted | supabase/functions/check-script-duration/index.ts:34-38 | a whitespace-only script passes the guard and is estimated at 0 |
| DurationPolicy.Evaluate | src/components/script-generator/AudioGenerator.tsx:245 | too long exactly when the estimate in seconds exceeds the target; equality fits |
| DurationPolicy.RoundedSeconds | src/components/script-generator/AudioGenerator.tsx:247 | the shown seconds are the nearest whole number to the estimate, halves up |
| DurationPolicy.DurationAlert | src/components/script-generator/AudioGenerator.tsx:242-256 | no alert without an estimate; the warning exactly when the estimate exceeds the target; both alerts quote the rounded estimate |
| DurationPolicy.HandlerBlocks | src/components/script-generator/AudioGenerator.tsx:166 | the handler's truthiness test blocks exactly when there is an estimate whose verdict is too long; a missing estimate never blocks |
| DurationPolicy.MaxWords | src/components/script-generator/ScriptForm.tsx:92-95 | for each offered target, the largest word count whose estimate fits (32, 65, 97, 130) |
| DurationPolicy.FitsIffFewWords | src/components/script-generator/AudioGenerator.tsx:245 | a script fits its target exactly when it has at most `MaxWords(target)` words |
| DurationPolicy.NoEstimateOnTarget | src/components/script-generator/AudioGenerator.tsx:245 | no word count is estimated at exactly 15, 30, 45 or 60 seconds |
| DurationPolicy.TooLongMayQuoteTarget | src/components/script-generator/AudioGenerator.tsx:247 | the too-long warning can quote the target itself: 66 words are estimated at 30.4 s, over a 30 s target, and the warning shows "30 seconds" |
| Base64.Symbol | supabase/functions/generate-audio/index.ts:80 | each six-bit value and the pad has a character that reads back as that value |
| Base64.SymbolsRender | supabase/functions/generate-audio/index.ts:80 | reading rendered characters gives back the six-bit values |
| Base64.Sextets | supabase/functions/generate-audio/index.ts:80 | every three bytes, or final one or two, become four six-bit values |
| Base64.FromSextetsRoundTrip | supabase/functions/generate-audio/index.ts:80 | decoding the six-bit values of any byte sequence gives back the bytes |
| Base64.Encode | supabase/functions/generate-audio/index.ts:80 | the encoding has 4 characters per started group of 3 bytes |
| Base64.DecodeEncode | supabase/functions/generate-audio/index.ts:80 | decoding the encoding of any byte sequence gives back the bytes |
| Base64.Latin1 | supabase/functions/generate-audio/index.ts:80 | a binary string stands for the bytes with the same codes, position by position |
| Base64.Btoa | supabase/functions/generate-audio/index.ts:80 | `btoa` succeeds exactly on binary strings, and its output decodes to the string's bytes |
| AudioProxy.Blank | supabase/functions/generate-audio/index.ts:20 | `!field?.trim()` is true for missing, null and whitespace-only strings, false for strings with text, and throws otherwise |
| AudioProxy.CheckBody | supabase/functions/generate-audio/index.ts:16-27 | every reply before the provider call has status 500; the engine error of the catch block (lines 94-113) exactly for an unparsable body, a script that is present but not a string, or such a voice after a script with text; the provider is called exactly when both fields have text and the key is set; the two validation messages exactly in the cases the field test and the key test select |
| AudioProxy.Decide | supabase/functions/generate-audio/index.ts:10-30 | only a preflight gets the CORS "ok"; every other reply before the provider call has status 500, the engine error exactly for an unparsable body or a field whose `trim` throws; the provider is called exactly when both fields have text and the key is set, with the voice, script and key; "ElevenLabs API key not configured" exactly when the fields pass but the key is missing or empty; "Script and voice ID are required" exactly for a blank script, or a script with text and a blank voice |
| AudioProxy.BinaryString | supabase/functions/generate-audio/index.ts:76-79 | the binary string has one character per byte, whose code is the byte |
| AudioProxy.BuildBinaryString | supabase/functions/generate-audio/index.ts:76-79 | the loop builds a string of the bytes' length whose character i has code byte i |
| AudioProxy.BinaryStringBytes | supabase/functions/generate-audio/index.ts:76-80 | the binary string is valid `btoa` input and stands for exactly the original bytes |
| AudioProxy.Classify | supabase/functions/generate-audio/index.ts:46-92 | delivered audio becomes its base64 encoding; a failure body containing free_users_not_allowed becomes the 403 reply, and only it does; any other failure body becomes "Failed to generate audio: " followed by the body; an unreachable provider becomes an engine error |
| AudioProxy.Handle | supabase/functions/generate-audio/index.ts:10-114 | preflight gives "ok"; a request that passes the checks gets the classified provider reply and any other gets the validation reply; audio in a reply decodes to the bytes the provider delivered; the 403 with code FREE_USER_RESTRICTED comes exactly from a provider call whose failure body contains free_users_not_allowed |
| AudioProxy.NoCallNoDependence | supabase/functions/generate-audio/index.ts:12-27 | when validation stops the request, the provider's reply has no influence |
| AudioProxy.BlankScriptRejected | supabase/functions/generate-audio/index.ts:20-22 | a missing or whitespace-only script gets 500 "Script and voice ID are required" whatever the voice, key and provider |
| AudioProxy.FreeUserFailure | supabase/functions/generate-audio/index.ts:55-66 | a free-user failure of the provider gives status 403 and code FREE_USER_RESTRICTED |
| AudioProxy.OtherProviderFailure | supabase/functions/generate-audio/index.ts:68 | any other provider failure gives 500 with the prefixed provider body |
| AudioProxy.DeliveredAudio | supabase/functions/generate-audio/index.ts:71-92 | a successful provider reply gives status 200 with the base64 encoding of the audio |
| AudioGenerator.Initial | src/components/script-generator/AudioGenerator.tsx:34-41 | the state on mount satisfies the invariant: no voice shown, no URLs, voices loading; the parent's estimate and voice survive a remount (src/components/ScriptGenerator.tsx:19-20, 31) |
| AudioGenerator.IsFreeUserRestriction | src/components/script-generator/AudioGenerator.tsx:104 | an error is a free-user restriction exactly when one of the two codes occurs in its message |
| AudioGenerator.LoadVoices | src/components/script-generator/AudioGenerator.tsx:44-65 | the reply's voice list replaces the voices when present; the failure toast on a failed call and no toast otherwise; loading always ends; nothing else changes |
| AudioGenerator.HandleVoiceChange | src/components/script-generator/AudioGenerator.tsx:91-141 | the sample is requested first; a failed request or an undecodable sample clears the selection and the parent's copy, drops the shown sample, keeps the estimate and raises the free-user or the generic toast; once the sample is a blob the voice is selected and reported, a fresh sample URL replaces the old one (revoked), and the duration check follows, setting the estimate or raising its own toast; the sample flag is false at the end; every other field is unchanged |
| AudioGenerator.HandleGenerateAudio | src/components/script-generator/AudioGenerator.tsx:154-174 | no request, and no state change, exactly when the script or voice is empty or the estimate blocks, with the missing-information or too-long toast; otherwise one request with the selected voice, whose reply `ReceiveAudio` takes in; only the voice, the generated URL, the serial and the busy flag can change |
| AudioGenerator.ReceiveAudio | src/components/script-generator/AudioGenerator.tsx:176-217 | the busy flag ends; a free-user error clears the voice and the parent's copy; any other error keeps it; once a reply arrives the old generated URL is revoked, and it stays shown when the audio does not become a blob; decoded audio is shown under a fresh URL; URLs are untouched on errors; every other field is unchanged |
| AudioGenerator.PressGenerate | src/components/script-generator/AudioGenerator.tsx:270-273 | a disabled button does nothing; an enabled one runs the generate handler, so with a script it sends exactly one request |
| AudioGenerator.GenerateDisabled | src/components/script-generator/AudioGenerator.tsx:273 | the button is disabled exactly while a generation is in flight or when the handler's voice and estimate checks (lines 155, 166) would refuse |
| AudioGenerator.FreshUrlIsNew | src/components/script-generator/AudioGenerator.tsx:118 | in a reachable state a newly created URL is not one already live |
| AudioGenerator.LoadVoicesKeepsInv | src/components/script-generator/AudioGenerator.tsx:44-65 | loading voices preserves the state invariant |
| AudioGenerator.VoiceChangeKeepsInv | src/components/script-generator/AudioGenerator.tsx:91-141 | a voice change preserves the state invariant (URLs tracked) and leaves the parent told of the voice shown |
| AudioGenerator.GenerateAudioKeepsInv | src/components/script-generator/AudioGenerator.tsx:154-217 | a generation preserves the state invariant |
| AudioGenerator.EditScriptKeepsInv | src/components/script-generator/ScriptDisplay.tsx:15 | an edit with the intended re-estimate preserves the state invariant |
| AudioGenerator.HandlersKeepParentSync | src/components/script-generator/AudioGenerator.tsx:154-217 | once the parent knows the selected voice, loading voices, generating audio and an edit keep it so |
| AudioGenerator.AtMostOneGeneratedUrl | src/components/script-generator/AudioGenerator.tsx:195-201 | at most one generated-audio URL is live, and it is the one shown |
| AudioGenerator.SampleFailureLeaksUrl | src/components/script-generator/AudioGenerator.tsx:94-137 | a failed or undecodable sample drops the shown sample URL without revoking it |
| AudioGenerator.GenerateDecodeFailureDangles | src/components/script-generator/AudioGenerator.tsx:195-201 | audio that does not become a blob leaves the old generated URL shown although it was revoked |
| AudioGenerator.FreeUserErrorClearsVoice | src/components/script-generator/AudioGenerator.tsx:103-113 | a free-user error clears the selection and the parent's copy on the sample path and, identically, on the generate path (lines 181-191) |
| AudioGenerator.OtherErrorsDiffer | src/components/script-generator/AudioGenerator.tsx:129-137 | a generic sample failure clears the selection while a generic generation failure (lines 207-213) keeps it |
| AudioGenerator.EstimatedLongScriptRefused | src/components/script-generator/AudioGenerator.tsx:164-173 | once the duration service's estimate of a script is in, that script, if it has more words than the target allows, disables the button and is refused by the handler |
| AudioGenerator.FittingScriptSent | src/components/script-generator/AudioGenerator.tsx:270-273 | a script within the target is sent with the chosen voice once sample and estimate have arrived |
| AudioGenerator.StaleEstimateBypass | src/components/script-generator/AudioGenerator.tsx:127 | after the estimate of a fitting script, any script edited to more words than the target allows is still sent with the chosen voice |
| AudioGenerator.WordsOfCount | src/components/script-generator/AudioGenerator.tsx:127 | for every target there is a script with more words than it allows (`WordsOf(MaxWords(target) + 1)`) |
| AudioGenerator.EditScript | src/components/script-generator/ScriptDisplay.tsx:15 | the intended edit: the duration check runs on the new text with the selected voice; its estimate replaces the old one, and a failed check leaves no estimate and raises a toast; nothing else changes |
| AudioGenerator.EditedLongScriptRefused | src/components/script-generator/AudioGenerator.tsx:164-173 | with the re-estimate on every edit, a script with more words than the target allows is refused by the button and the handler |
| AudioGenerator.EditedFittingScriptSent | src/components/script-generator/AudioGenerator.tsx:270-273 | with the re-estimate on every edit, a fitting script is sent with the selected voice |

## Left out

- Network I/O: `supabase.functions.invoke` and the `fetch` to the text-to-speech provider are not modelled. Their results are inputs of the transitions, and the handler's `fetch` rejection is the `Unreachable` reply.
- The data-URL `fetch(...).then(res => res.blob())` is not modelled as a decoder. Whether it yields a blob is the `decodes` flag of the reply, and the transitions take it in where the component awaits it: after the sample request, and after the old generated URL is revoked.
- `URL.createObjectURL` and `revokeObjectURL` are not modelled as platform calls. URLs are numbered tokens, and revocation removes a token from a live set.
- How the client library turns a non-2xx reply into `error.message` is not part of this model. The free-user test in the component is modelled on whatever message arrives.
- The unmount cleanup effect (`AudioGenerator.tsx:143-152`) is left out. Its empty dependency list captures the initial null URLs, so it releases nothing.
- React's asynchronous `setState`, stale closures and overlapping handlers are left out. Each handler is one atomic step, and the state it reads is the state at its start.
- `estimatedDuration` and the parent's selected voice belong to the parent component (`ScriptGenerator.tsx:19-20`). They are kept in the component's state record, and `Initial` takes both so that a remount (`ScriptGenerator.tsx:31`) keeps them.
- Editing the script (`ScriptDisplay.tsx:15`) changes only the `script` property, which every handler takes as an argument; the component has no transition for it. `EditScript` is the edit under the rule that the estimate is recomputed whenever the script changes; it is not code of the component.
- EditScript: a re-check that fails leaves no estimate, and no estimate never blocks, so a script longer than the target is still sent after a failed re-check (`EditedLongScriptRefused` needs the re-estimate to arrive). The component drops the button's guard the same way whenever `estimatedDuration` is null.
- Toast texts, console logging and timestamps are left out. Only the kind of each toast and the numbers it quotes are kept.
- Floating-point arithmetic is left out. Estimates are exact integer tenths, so the last-bit rounding error of the floating-point product is not modelled.
- A `data.voices` read on a null reply (a TypeError) is not distinguished from a failed call.
- The voice list rendering and the other UI components are not modelled.
- The generate-script and get-voices functions and `src/services/openai.ts` are not modelled. They are proxies without logic of their own.
- The fallback messages `'An unexpected error occurred'` and `'An error occurred while checking script duration'` are not modelled. They apply only to an error with an empty message, which no modelled path produces.
- Base64: decoding is not required to reject non-canonical input. Only the round trip over encodings is stated.

## Findings

| source | as written | input that shows it | evidently intended | confidence | as-written member | corrected member |
|---|---|---|---|---|---|---|
| src/components/script-generator/AudioGenerator.tsx:127 | the estimate is recomputed only after a voice sample arrives; an edit of the script (`ScriptDisplay.tsx:15`) keeps the estimate of the old text | choose a voice for the one-word script "a" against a 30 s target, then edit the script to `WordsOf(66)`: the button stays enabled and the 66-word script is sent | the estimate is recomputed whenever the script changes, so a script longer than the target is never sent once its re-estimate arrives | medium, not executed | AudioGenerator.StaleEstimateBypass | AudioGenerator.EditScript |

=== FILE: audio_generator.dfy ===
/** The AudioGenerator component of the script generator page: the voice
    list, the voice sample that plays on selection, the duration check that
    follows it, and the "Generate Audio" action with its duration gate.

    Each handler is one atomic transition from a state record to an
    `Outcome`: the next state, the edge-function calls it makes, and the
    notices (toasts) it raises. The result of each call is an input of the
    transition. Object URLs are opaque tokens numbered by a counter, and the
    sets `liveSamples` and `liveAudio` hold the URLs created and not yet
    revoked. */
module AudioGenerator {
  import opened Common
  import opened Text
  import opened Estimate
  import opened DurationPolicy
  import AudioProxy

  /** The text spoken by a voice sample. */
  const SAMPLE_TEXT: string := "Hello! This is a sample of my voice. How do I sound?"

  datatype Voice = Voice(voiceId: string, name: string, category: string)

  /** An object URL, `URL.createObjectURL(blob)`; only its identity matters. */
  datatype Url = ObjectUrl(serial: nat)

  /** The result of `supabase.functions.invoke`: the data, or an error with its message. */
  datatype NetResult<T> = Ok(payload: T) | Err(message: string)

  /** The data of a successful `generate-audio` call: the Base64 audio, and
      whether the browser turns it into a blob, i.e. whether
      `fetch("data:audio/mpeg;base64," + audioContent)` and `blob()` succeed. */
  datatype AudioReply = AudioReply(audioContent: string, decodes: bool)

  /** The call succeeded and its audio became a blob. */
  predicate Decoded(r: NetResult<AudioReply>)
  {
    r.Ok? && r.payload.decodes
  }

  /** The edge-function calls the component makes. */
  datatype Call =
    | GetVoices
    | GenerateAudio(script: string, voiceId: string)
    | CheckDuration(script: string, voiceId: string)

  /** The toasts, by kind; `ScriptTooLong` keeps the numbers it quotes. */
  datatype Notice =
    | VoicesLoadFailed
    | VoiceUnavailable
    | SampleFailed
    | DurationCheckFailed
    | MissingInformation
    | ScriptTooLong(estimateSeconds: nat, limit: Target)
    | AudioGenerated
    | GenerationFailed

  /** The component's state, with two values it shares with its parent:
      `reportedVoice`, the last voice passed to `onVoiceSelect`, and
      `estimatedDuration`, the estimate in tenths of a second. */
  datatype State = State(
    voices: seq<Voice>,
    isLoadingVoices: bool,
    selectedVoice: string,
    reportedVoice: string,
    estimatedDuration: Option<nat>,
    isPlayingSample: bool,
    isCheckingDuration: bool,
    isGeneratingAudio: bool,
    sampleAudioUrl: Option<Url>,
    audioUrl: Option<Url>,
    liveSamples: set<Url>,
    liveAudio: set<Url>,
    nextSerial: nat)

  datatype Outcome = Outcome(state: State, calls: seq<Call>, notices: seq<Notice>)

  /** The URL the next `createObjectURL` returns. */
  function FreshUrl(s: State): Url
  {
    ObjectUrl(s.nextSerial)
  }

  /** The live set after `URL.revokeObjectURL(u)` when `u` is set. */
  function Revoke(live: set<Url>, u: Option<Url>): set<Url>
  {
    if u.Some? then live - {u.value} else live
  }

  /** The URLs an optional reference holds. */
  function Held(u: Option<Url>): set<Url>
  {
    if u.Some? then {u.value} else {}
  }

  /** What every reachable state satisfies: a live generated-audio URL is
      the one shown (the one shown may already be revoked); the sample shown
      is live; the audio shown is no sample URL; and every URL live or shown
      was created before, so a fresh URL is new. */
  predicate Inv(s: State)
  {
    && s.liveAudio <= Held(s.audioUrl)
    && Held(s.sampleAudioUrl) <= s.liveSamples
    && Held(s.audioUrl) !! s.liveSamples
    && (forall u :: u in s.liveSamples ==> u.serial < s.nextSerial)
    && (forall u :: u in Held(s.audioUrl) ==> u.serial < s.nextSerial)
  }

  /** The state on mount: no voice, no URLs, voices loading. The parent
      keeps its own values across a remount: the estimate, and the voice it
      was last told about, which the fresh component no longer shows. */
  function Initial(estimatedDuration: Option<nat>, parentVoice: string): (s: State)
    ensures Inv(s)
    ensures s.isLoadingVoices && s.selectedVoice == [] && s.audioUrl.None? && s.sampleAudioUrl.None?
    ensures s.liveSamples == {} && s.liveAudio == {}
    ensures s.reportedVoice == parentVoice && s.estimatedDuration == estimatedDuration
  {
    State([], true, "", parentVoice, estimatedDuration, false, false, false, None, None, {}, {}, 0)
  }

  /** The test both handlers apply to an error message. */
  function IsFreeUserRestriction(message: string): (r: bool)
    ensures r <==> ((exists i :: OccursAt(message, AudioProxy.FREE_USERS_NOT_ALLOWED, i))
                    || (exists i :: OccursAt(message, AudioProxy.FREE_USER_RESTRICTED, i)))
  {
    Contains(message, AudioProxy.FREE_USERS_NOT_ALLOWED) || Contains(message, AudioProxy.FREE_USER_RESTRICTED)
  }

  /** `fetchVoices` on mount: the list replaces the voices when the reply
      carries one, a failure raises a toast, and loading ends either way. */
  function LoadVoices(s: State, result: NetResult<Option<seq<Voice>>>): (o: Outcome)
    ensures o.calls == [GetVoices]
    ensures !o.state.isLoadingVoices
    ensures o.notices == (if result.Err? then [VoicesLoadFailed] else [])
    ensures o.state.voices == (if result.Ok? && result.payload.Some? then result.payload.value else s.voices)
    ensures o.state == s.(voices := o.state.voices, isLoadingVoices := false)
  {
    match result
    case Err(_) => Outcome(s.(isLoadingVoices := false), [GetVoices], [VoicesLoadFailed])
    case Ok(None) => Outcome(s.(isLoadingVoices := false), [GetVoices], [])
    case Ok(Some(voices)) => Outcome(s.(voices := voices, isLoadingVoices := false), [GetVoices], [])
  }

  /** `handleVoiceChange`: select and report the voice, request a sample of
      it, and once its audio is a blob show the sample (revoking the sample
      URL shown before) and check the script's duration with the voice. A
      failed request or an undecodable sample clears the selection; a failed
      duration check only raises a toast. The sample flag never stays set.
      Only the fields named in the last clause can change. */
  function HandleVoiceChange(s: State, script: string, voiceId: string,
                             sample: NetResult<AudioReply>, check: NetResult<nat>): (o: Outcome)
    ensures !o.state.isPlayingSample
    ensures o.state.selectedVoice == o.state.reportedVoice
    ensures |o.calls| >= 1 && o.calls[0] == GenerateAudio(SAMPLE_TEXT, voiceId)
    ensures !Decoded(sample) ==> o.calls == [GenerateAudio(SAMPLE_TEXT, voiceId)]
    ensures !Decoded(sample) ==> o.state.selectedVoice == [] && o.state.sampleAudioUrl.None?
    ensures !Decoded(sample) ==> o.state.liveSamples == s.liveSamples && o.state.nextSerial == s.nextSerial
    ensures !Decoded(sample) ==> o.state.estimatedDuration == s.estimatedDuration
                                 && o.state.isCheckingDuration == s.isCheckingDuration
    ensures sample.Err? ==> (o.notices == [VoiceUnavailable] <==> IsFreeUserRestriction(sample.message))
    ensures sample.Err? && !IsFreeUserRestriction(sample.message) ==> o.notices == [SampleFailed]
    ensures sample.Ok? && !sample.payload.decodes ==> o.notices == [SampleFailed]
    ensures Decoded(sample) ==> o.calls == [GenerateAudio(SAMPLE_TEXT, voiceId), CheckDuration(script, voiceId)]
    ensures Decoded(sample) ==> o.state.selectedVoice == voiceId
    ensures Decoded(sample) ==> o.state.sampleAudioUrl == Some(FreshUrl(s)) && o.state.nextSerial == s.nextSerial + 1
    ensures Decoded(sample) ==> o.state.liveSamples == Revoke(s.liveSamples, s.sampleAudioUrl) + {FreshUrl(s)}
    ensures Decoded(sample) ==> !o.state.isCheckingDuration
    ensures Decoded(sample) ==> o.state.estimatedDuration == (if check.Ok? then Some(check.payload) else s.estimatedDuration)
    ensures Decoded(sample) ==> o.notices == (if check.Err? then [DurationCheckFailed] else [])
    ensures o.state == s.(selectedVoice := o.state.selectedVoice, reportedVoice := o.state.reportedVoice,
                          sampleAudioUrl := o.state.sampleAudioUrl, liveSamples := o.state.liveSamples,
                          nextSerial := o.state.nextSerial, estimatedDuration := o.state.estimatedDuration,
                          isCheckingDuration := o.state.isCheckingDuration, isPlayingSample := false)
  {
    var sampleCall := GenerateAudio(SAMPLE_TEXT, voiceId);
    var cleared := s.(selectedVoice := "", reportedVoice := "", sampleAudioUrl := None, isPlayingSample := false);
    match sample
    case Err(message) =>
      Outcome(cleared, [sampleCall], if IsFreeUserRestriction(message) then [VoiceUnavailable] else [SampleFailed])
    case Ok(reply) =>
      if !reply.decodes then Outcome(cleared, [sampleCall], [SampleFailed])
      else
        var url := FreshUrl(s);
        var next := s.(selectedVoice := voiceId, reportedVoice := voiceId,
                       sampleAudioUrl := Some(url),
                       liveSamples := Revoke(s.liveSamples, s.sampleAudioUrl) + {url},
                       nextSerial := s.nextSerial + 1,
                       estimatedDuration := if check.Ok? then Some(check.payload) else s.estimatedDuration,
                       isCheckingDuration := false, isPlayingSample := false);
        Outcome(next, [sampleCall, CheckDuration(script, voiceId)], if check.Err? then [DurationCheckFailed] else [])
  }

  /** `handleGenerateAudio`: refuse without a script or a voice, refuse a
      script whose estimate exceeds the target, and otherwise request the
      audio and take in the reply (`ReceiveAudio`). Only the fields named in
      the last clause can change. */
  function HandleGenerateAudio(s: State, script: string, target: Target, result: NetResult<AudioReply>): (o: Outcome)
    ensures o.calls == [] <==> script == [] || s.selectedVoice == [] || HandlerBlocks(s.estimatedDuration, target)
    ensures o.calls == [] ==> o.state == s
    ensures (script == [] || s.selectedVoice == []) ==> o.notices == [MissingInformation]
    ensures script != [] && s.selectedVoice != [] && HandlerBlocks(s.estimatedDuration, target)
            ==> o.notices == [ScriptTooLong(RoundedSeconds(s.estimatedDuration.value), target)]
    ensures o.calls != [] ==> o.calls == [GenerateAudio(script, s.selectedVoice)] && !o.state.isGeneratingAudio
    ensures o.calls != [] ==> o == ReceiveAudio(s, o.calls, result)
    ensures o.state == s.(selectedVoice := o.state.selectedVoice, reportedVoice := o.state.reportedVoice,
                          audioUrl := o.state.audioUrl, liveAudio := o.state.liveAudio,
                          nextSerial := o.state.nextSerial, isGeneratingAudio := o.state.isGeneratingAudio)
  {
    if script == [] || s.selectedVoice == [] then
      Outcome(s, [], [MissingInformation])
    else if HandlerBlocks(s.estimatedDuration, target) then
      Outcome(s, [], [ScriptTooLong(RoundedSeconds(s.estimatedDuration.value), target)])
    else
      ReceiveAudio(s, [GenerateAudio(script, s.selectedVoice)], result)
  }

  /** The reply to a generation request. Once a reply arrives the previous
      generated URL is revoked; if its audio becomes a blob a fresh URL is
      shown, and otherwise the revoked URL stays shown. A free-user error
      clears the selection; any other error keeps it. The in-flight flag
      ends either way. Only the fields named in the last clause can
      change. */
  function ReceiveAudio(s: State, calls: seq<Call>, result: NetResult<AudioReply>): (o: Outcome)
    ensures o.calls == calls && !o.state.isGeneratingAudio
    ensures result.Err? && IsFreeUserRestriction(result.message)
            ==> o.state.selectedVoice == [] && o.state.reportedVoice == []
                && o.state.audioUrl == s.audioUrl && o.state.liveAudio == s.liveAudio
                && o.notices == [VoiceUnavailable]
    ensures result.Err? && !IsFreeUserRestriction(result.message)
            ==> o.state.selectedVoice == s.selectedVoice && o.state.reportedVoice == s.reportedVoice
                && o.state.audioUrl == s.audioUrl && o.state.liveAudio == s.liveAudio
                && o.notices == [GenerationFailed]
    ensures result.Ok? && !result.payload.decodes
            ==> o.state.selectedVoice == s.selectedVoice && o.state.reportedVoice == s.reportedVoice
                && o.state.audioUrl == s.audioUrl && o.state.liveAudio == Revoke(s.liveAudio, s.audioUrl)
                && o.notices == [GenerationFailed]
    ensures Decoded(result)
            ==> o.state.selectedVoice == s.selectedVoice && o.state.reportedVoice == s.reportedVoice
                && o.state.audioUrl == Some(FreshUrl(s))
                && o.state.liveAudio == Revoke(s.liveAudio, s.audioUrl) + {FreshUrl(s)}
                && o.notices == [AudioGenerated]
    ensures o.state.nextSerial == if Decoded(result) then s.nextSerial + 1 else s.nextSerial
    ensures o.state == s.(selectedVoice := o.state.selectedVoice, reportedVoice := o.state.reportedVoice,
                          audioUrl := o.state.audioUrl, liveAudio := o.state.liveAudio,
                          nextSerial := o.state.nextSerial, isGeneratingAudio := false)
  {
    match result
    case Err(message) =>
      if IsFreeUserRestriction(message) then
        Outcome(s.(selectedVoice := "", reportedVoice := "", isGeneratingAudio := false), calls, [VoiceUnavailable])
      else
        Outcome(s.(isGeneratingAudio := false), calls, [GenerationFailed])
    case Ok(reply) =>
      var revoked := Revoke(s.liveAudio, s.audioUrl);
      if !reply.decodes then
        Outcome(s.(liveAudio := revoked, isGeneratingAudio := false), calls, [GenerationFailed])
      else
        var url := FreshUrl(s);
        var next := s.(audioUrl := Some(url),
                       liveAudio := revoked + {url},
                       nextSerial := s.nextSerial + 1,
                       isGeneratingAudio := false);
        Outcome(next, calls, [AudioGenerated])
  }

  /** An edit of the script under the rule that the estimate is recomputed
      whenever the script changes: the estimate of the new text replaces the
      old one, and one that cannot be recomputed is dropped rather than
      kept. The component as written has no such handler, so an edit leaves
      the estimate of the old text in place (`StaleEstimateBypass`). */
  function EditScript(s: State, script: string, check: NetResult<nat>): (o: Outcome)
    ensures o.calls == [CheckDuration(script, s.selectedVoice)]
    ensures o.state.estimatedDuration == (if check.Ok? then Some(check.payload) else None)
    ensures o.notices == (if check.Err? then [DurationCheckFailed] else [])
    ensures o.state == s.(estimatedDuration := o.state.estimatedDuration, isCheckingDuration := false)
  {
    match check
    case Ok(tenths) =>
      Outcome(s.(estimatedDuration := Some(tenths), isCheckingDuration := false), [CheckDuration(script, s.selectedVoice)], [])
    case Err(_) =>
      Outcome(s.(estimatedDuration := None, isCheckingDuration := false), [CheckDuration(script, s.selectedVoice)], [DurationCheckFailed])
  }

  /** The `disabled` property of the "Generate Audio" button. Apart from the
      in-flight flag it refuses exactly what the handler's own guards refuse,
      although the button tests the estimate with `!== null` and the handler
      by truthiness. */
  function GenerateDisabled(s: State, target: Target): (b: bool)
    ensures b <==> s.isGeneratingAudio || s.selectedVoice == [] || HandlerBlocks(s.estimatedDuration, target)
  {
    s.isGeneratingAudio || s.selectedVoice == []
    || (s.estimatedDuration.Some? && Evaluate(s.estimatedDuration.value, target) == TooLong)
  }

  /** A click on the button: nothing happens while it is disabled, and
      otherwise it runs `handleGenerateAudio`. */
  function PressGenerate(s: State, script: string, target: Target, result: NetResult<AudioReply>): (o: Outcome)
    ensures GenerateDisabled(s, target) ==> o == Outcome(s, [], [])
    ensures !GenerateDisabled(s, target) ==> o == HandleGenerateAudio(s, script, target, result)
    ensures !GenerateDisabled(s, target) && script != [] ==> o.calls == [GenerateAudio(script, s.selectedVoice)]
    ensures !GenerateDisabled(s, target) && script == [] ==> o.calls == [] && o.notices == [MissingInformation]
  {
    if GenerateDisabled(s, target) then Outcome(s, [], [])
    else
      HandleGenerateAudio(s, script, target, result)
  }

  /** In a reachable state the next object URL is not already live. */
  lemma FreshUrlIsNew(s: State)
    requires Inv(s)
    ensures FreshUrl(s) !in s.liveSamples && FreshUrl(s) !in s.liveAudio
  {
  }

  lemma LoadVoicesKeepsInv(s: State, result: NetResult<Option<seq<Voice>>>)
    requires Inv(s)
    ensures Inv(LoadVoices(s, result).state)
  {
  }

  lemma VoiceChangeKeepsInv(s: State, script: string, voiceId: string,
                            sample: NetResult<AudioReply>, check: NetResult<nat>)
    requires Inv(s)
    ensures Inv(HandleVoiceChange(s, script, voiceId, sample, check).state)
  {
  }

  lemma GenerateAudioKeepsInv(s: State, script: string, target: Target, result: NetResult<AudioReply>)
    requires Inv(s)
    ensures Inv(HandleGenerateAudio(s, script, target, result).state)
  {
  }

  lemma EditScriptKeepsInv(s: State, script: string, check: NetResult<nat>)
    requires Inv(s)
    ensures Inv(EditScript(s, script, check).state)
  {
  }

  /** The parent knows the selected voice once a voice has been chosen, and
      loading voices, generating audio and editing the script keep it so. A
      remount breaks it: the fresh component shows no voice while the parent
      still holds the last one (`Initial`). */
  lemma HandlersKeepParentSync(s: State, script: string, target: Target,
                               voices: NetResult<Option<seq<Voice>>>, result: NetResult<AudioReply>,
                               check: NetResult<nat>)
    requires s.selectedVoice == s.reportedVoice
    ensures var n := LoadVoices(s, voices).state; n.selectedVoice == n.reportedVoice
    ensures var n := HandleGenerateAudio(s, script, target, result).state; n.selectedVoice == n.reportedVoice
    ensures var n := EditScript(s, script, check).state; n.selectedVoice == n.reportedVoice
  {
  }

  /** In every reachable state at most one generated-audio URL is live, and it is the one shown. */
  lemma AtMostOneGeneratedUrl(s: State)
    requires Inv(s)
    ensures |s.liveAudio| <= 1
    ensures forall u :: u in s.liveAudio ==> s.audioUrl == Some(u)
  {
    if s.audioUrl.Some? {
      assert s.liveAudio == {} || s.liveAudio == {s.audioUrl.value};
    }
  }

  /** A failed sample request drops the shown sample without revoking it:
      its URL stays live while no field of the state refers to it. */
  lemma SampleFailureLeaksUrl(s: State, script: string, voiceId: string,
                              sample: NetResult<AudioReply>, check: NetResult<nat>)
    requires Inv(s) && s.sampleAudioUrl.Some? && !Decoded(sample)
    ensures var next := HandleVoiceChange(s, script, voiceId, sample, check).state;
      && s.sampleAudioUrl.value in next.liveSamples
      && next.sampleAudioUrl != s.sampleAudioUrl
      && next.audioUrl != s.sampleAudioUrl
  {
  }

  /** A generated reply whose audio does not become a blob revokes the
      audio shown before and leaves it shown: the state refers to a URL that
      is no longer live. */
  lemma GenerateDecodeFailureDangles(s: State, script: string, target: Target, content: string)
    requires s.audioUrl.Some? && script != [] && s.selectedVoice != []
    requires !HandlerBlocks(s.estimatedDuration, target)
    ensures var next := HandleGenerateAudio(s, script, target, Ok(AudioReply(content, false))).state;
      && next.audioUrl == s.audioUrl
      && s.audioUrl.value !in next.liveAudio
  {
  }

  /** A free-user error resets the selection on the sample path and on the
      generate path alike, and tells the parent. */
  lemma FreeUserErrorClearsVoice(s: State, script: string, voiceId: string, target: Target,
                                 message: string, check: NetResult<nat>)
    requires IsFreeUserRestriction(message)
    requires script != [] && s.selectedVoice != [] && !HandlerBlocks(s.estimatedDuration, target)
    ensures var o := HandleVoiceChange(s, script, voiceId, Err(message), check);
      o.state.selectedVoice == [] && o.state.reportedVoice == [] && o.notices == [VoiceUnavailable]
    ensures var o := HandleGenerateAudio(s, script, target, Err(message));
      o.state.selectedVoice == [] && o.state.reportedVoice == [] && o.notices == [VoiceUnavailable]
  {
  }

  /** Any other error: a failed sample clears the selection, a failed generation keeps it. */
  lemma OtherErrorsDiffer(s: State, script: string, voiceId: string, target: Target,
                          message: string, check: NetResult<nat>)
    requires !IsFreeUserRestriction(message)
    requires script != [] && s.selectedVoice != [] && !HandlerBlocks(s.estimatedDuration, target)
    ensures HandleVoiceChange(s, script, voiceId, Err(message), check).state.selectedVoice == []
    ensures HandleGenerateAudio(s, script, target, Err(message)).state.selectedVoice == s.selectedVoice
  {
  }

  /** After a voice is chosen and the duration service's estimate of the
      script arrives, that same script, when it has more words than the
      target allows, is not sent for generation: the button is disabled and
      the handler refuses it. */
  lemma EstimatedLongScriptRefused(s: State, script: string, voiceId: string, reply: AudioReply,
                                   target: Target, result: NetResult<AudioReply>)
    requires reply.decodes
    requires RunCount(script) > MaxWords(target)
    ensures var next := HandleVoiceChange(s, script, voiceId, Ok(reply), Ok(EstimateTenths(script))).state;
      && GenerateDisabled(next, target)
      && HandleGenerateAudio(next, script, target, result).calls == []
  {
    var next := HandleVoiceChange(s, script, voiceId, Ok(reply), Ok(EstimateTenths(script))).state;
    FitsIffFewWords(RunCount(script), target);
  }

  /** Conversely, a script that fits is sent with the chosen voice once the
      sample and the estimate have arrived, unless a generation is in flight. */
  lemma FittingScriptSent(s: State, script: string, voiceId: string, reply: AudioReply,
                          target: Target, result: NetResult<AudioReply>)
    requires script != [] && voiceId != [] && !s.isGeneratingAudio && reply.decodes
    requires RunCount(script) <= MaxWords(target)
    ensures var next := HandleVoiceChange(s, script, voiceId, Ok(reply), Ok(EstimateTenths(script))).state;
      && !GenerateDisabled(next, target)
      && PressGenerate(next, script, target, result).calls == [GenerateAudio(script, voiceId)]
  {
    var next := HandleVoiceChange(s, script, voiceId, Ok(reply), Ok(EstimateTenths(script))).state;
    FitsIffFewWords(RunCount(script), target);
  }

  /** The estimate is not recomputed when the script is edited: after the
      estimate of a script that fits arrives, the script edited to one with
      more words than the target allows is sent for generation as is. */
  lemma StaleEstimateBypass(s: State, short: string, long: string, voiceId: string, reply: AudioReply,
                            target: Target, result: NetResult<AudioReply>)
    requires voiceId != [] && reply.decodes && !s.isGeneratingAudio
    requires RunCount(short) <= MaxWords(target) < RunCount(long)
    ensures var next := HandleVoiceChange(s, short, voiceId, Ok(reply), Ok(EstimateTenths(short))).state;
      PressGenerate(next, long, target, result).calls == [GenerateAudio(long, voiceId)]
  {
    var next := HandleVoiceChange(s, short, voiceId, Ok(reply), Ok(EstimateTenths(short))).state;
    FitsIffFewWords(RunCount(short), target);
    assert !GenerateDisabled(next, target);
  }

  /** A text of `n` one-letter words, each after a space. */
  function WordsOf(n: nat): (t: string)
    ensures |t| == 2 * n
  {
    if n == 0 then "" else WordsOf(n - 1) + " a"
  }

  /** Scripts that make `StaleEstimateBypass` happen exist for every
      target: "a" fits, and `WordsOf(MaxWords(target) + 1)` is too long. */
  lemma {:induction false} WordsOfCount(n: nat)
    ensures RunCount(WordsOf(n)) == n
  {
    if n > 0 {
      WordsOfCount(n - 1);
      var w := " a";
      assert RunCount(w) == 1 by {
        assert w[..|w| - 1] == " ";
        assert " "[..0] == [];
      }
      RunCountAppend(WordsOf(n - 1), w);
    }
  }

  /** With the estimate recomputed on every edit, a script with more words
      than the target allows is refused however it came about. */
  lemma EditedLongScriptRefused(s: State, script: string, target: Target, result: NetResult<AudioReply>)
    requires RunCount(script) > MaxWords(target)
    ensures var next := EditScript(s, script, Ok(EstimateTenths(script))).state;
      && GenerateDisabled(next, target)
      && HandleGenerateAudio(next, script, target, result).calls == []
  {
    var next := EditScript(s, script, Ok(EstimateTenths(script))).state;
    FitsIffFewWords(RunCount(script), target);
  }

  /** And an edited script that fits is still sent with the selected voice. */
  lemma EditedFittingScriptSent(s: State, script: string, target: Target, result: NetResult<AudioReply>)
    requires script != [] && s.selectedVoice != [] && !s.isGeneratingAudio
    requires RunCount(script) <= MaxWords(target)
    ensures var next := EditScript(s, script, Ok(EstimateTenths(script))).state;
      && !GenerateDisabled(next, target)
      && PressGenerate(next, script, target, result).calls == [GenerateAudio(script, s.selectedVoice)]
  {
    FitsIffFewWords(RunCount(script), target);
  }
}

=== FILE: audio_proxy.dfy ===
/** The request handler of the generate-audio edge function, as an ordered
    decision procedure: CORS preflight, the required-field check, the API key
    check, then the text-to-speech provider's reply. The provider call itself
    is not modelled; its reply is an input of the handler. */
module AudioProxy {
  import opened Common
  import opened Text
  import Base64

  /** The request body: JSON that `req.json()` rejects, or an object whose
      `script` and `voiceId` properties have been read. */
  datatype Body = Unparsable | Json(script: Field, voiceId: Field)

  /** An OPTIONS preflight, or any other method carrying a body. */
  datatype Request = Preflight | Invoke(body: Body)

  /** The environment: `Deno.env.get('ELEVEN_LABS_API_KEY')`. */
  datatype Env = Env(apiKey: Option<string>)

  /** The provider's reply: an ok response with the audio bytes, a failed
      one with its body text, or a `fetch` that rejects without a response. */
  datatype Upstream = Delivered(audio: seq<byte>) | Rejected(text: string) | Unreachable

  datatype Response =
    | CorsOk                           // body 'ok', CORS headers, status 200
    | AudioContent(base64: string)     // `{ audioContent }`, status 200
    | FreeUserRestricted               // `{ error, code: 'FREE_USER_RESTRICTED' }`, status 403
    | ServerError(error: ErrorMessage) // `{ error, timestamp }`, status 500

  /** What the handler does after validation: reply at once, or call the
      provider with the voice, the text and the key. */
  datatype Step = Reply(response: Response) | CallProvider(voiceId: string, text: string, apiKey: string)

  const FIELDS_REQUIRED: string := "Script and voice ID are required"
  const KEY_NOT_CONFIGURED: string := "ElevenLabs API key not configured"
  const FAILURE_PREFIX: string := "Failed to generate audio: "
  const FREE_USERS_NOT_ALLOWED: string := "free_users_not_allowed"
  const FREE_USER_RESTRICTED: string := "FREE_USER_RESTRICTED"

  function Status(r: Response): int
  {
    match r
    case CorsOk => 200
    case AudioContent(_) => 200
    case FreeUserRestricted => 403
    case ServerError(_) => 500
  }

  /** The `code` property of the reply body, when there is one. */
  function Code(r: Response): Option<string>
  {
    if r.FreeUserRestricted? then Some(FREE_USER_RESTRICTED) else None
  }

  /** `!field?.trim()`: `Some(true)` for a missing, null or blank field,
      `Some(false)` for a string with a non-whitespace character, and `None`
      when the expression throws (`trim` is not a function of a non-string). */
  function Blank(f: Field): (r: Option<bool>)
    ensures r == Some(true) <==> f.Absent? || f.Null? || (f.Str? && AllWs(f.text))
    ensures r == Some(false) <==> f.Str? && !AllWs(f.text)
  {
    match f
    case Absent => Some(true)
    case Null => Some(true)
    case Str(s) => Some(Trim(s) == [])
    case Other(_) => None
  }

  /** Both fields are strings with at least one non-whitespace character. */
  predicate FieldsPresent(body: Body)
  {
    && body.Json?
    && body.script.Str? && !AllWs(body.script.text)
    && body.voiceId.Str? && !AllWs(body.voiceId.text)
  }

  /** `!elevenLabsKey` is false: the key is set and not empty. */
  predicate KeyConfigured(env: Env)
  {
    env.apiKey.Some? && env.apiKey.value != []
  }

  /** The checks on the body, in the order the handler checks them: the
      script field, the voice field, the key. A body that does not parse, or
      a field that is present but not a string, throws and gets the catch
      block's 500. */
  function CheckBody(body: Body, env: Env): (step: Step)
    ensures step.Reply? ==> Status(step.response) == 500
    ensures step.CallProvider? <==> FieldsPresent(body) && KeyConfigured(env)
    ensures step.CallProvider? ==> step == CallProvider(body.voiceId.text, body.script.text, env.apiKey.value)
    ensures step == Reply(ServerError(Message(KEY_NOT_CONFIGURED))) <==> FieldsPresent(body) && !KeyConfigured(env)
    ensures step == Reply(ServerError(Message(FIELDS_REQUIRED)))
        <==> body.Json? && (Blank(body.script) == Some(true) || (Blank(body.script) == Some(false) && Blank(body.voiceId) == Some(true)))
    ensures step == Reply(ServerError(EngineError))
        <==> body.Unparsable? || Blank(body.script).None? || (Blank(body.script) == Some(false) && Blank(body.voiceId).None?)
  {
    match body
    case Unparsable => Reply(ServerError(EngineError))
    case Json(script, voiceId) =>
      match Blank(script)
      case None => Reply(ServerError(EngineError))
      case Some(true) => Reply(ServerError(Message(FIELDS_REQUIRED)))
      case Some(false) =>
        match Blank(voiceId)
        case None => Reply(ServerError(EngineError))
        case Some(true) => Reply(ServerError(Message(FIELDS_REQUIRED)))
        case Some(false) =>
          if !KeyConfigured(env) then Reply(ServerError(Message(KEY_NOT_CONFIGURED)))
          else CallProvider(voiceId.text, script.text, env.apiKey.value)
  }

  /** The handler up to the provider call: the preflight short-circuit, then
      the checks on the body. Only a preflight gets the CORS reply, and every
      other reply before the call has status 500. */
  function Decide(req: Request, env: Env): (step: Step)
    ensures step == Reply(CorsOk) <==> req.Preflight?
    ensures step.Reply? && !req.Preflight? ==> Status(step.response) == 500
    ensures step.CallProvider? <==> req.Invoke? && FieldsPresent(req.body) && KeyConfigured(env)
    ensures step.CallProvider? ==> step == CallProvider(req.body.voiceId.text, req.body.script.text, env.apiKey.value)
    ensures step == Reply(ServerError(Message(KEY_NOT_CONFIGURED))) <==> req.Invoke? && FieldsPresent(req.body) && !KeyConfigured(env)
    ensures step == Reply(ServerError(Message(FIELDS_REQUIRED)))
        <==> req.Invoke? && req.body.Json?
             && (Blank(req.body.script) == Some(true) || (Blank(req.body.script) == Some(false) && Blank(req.body.voiceId) == Some(true)))
    ensures step == Reply(ServerError(EngineError))
        <==> req.Invoke? && (req.body.Unparsable? || Blank(req.body.script).None?
                             || (Blank(req.body.script) == Some(false) && Blank(req.body.voiceId).None?))
  {
    match req
    case Preflight => Reply(CorsOk)
    case Invoke(body) => CheckBody(body, env)
  }

  /** The loop that turns the audio bytes into a binary string:
      one character per byte, whose code is the byte. */
  function BinaryString(bytes: seq<byte>): (binary: string)
    ensures |binary| == |bytes|
    ensures forall i :: 0 <= i < |bytes| ==> binary[i] as int == bytes[i] as int
  {
    if bytes == [] then [] else [bytes[0] as int as char] + BinaryString(bytes[1..])
  }

  /** The same loop, written as in the source with `binary += String.fromCharCode(uint8Array[i])`. */
  method BuildBinaryString(bytes: seq<byte>) returns (binary: string)
    ensures |binary| == |bytes|
    ensures forall i :: 0 <= i < |bytes| ==> binary[i] as int == bytes[i] as int
    ensures binary == BinaryString(bytes)
  {
    binary := "";
    var i := 0;
    while i < |bytes|
      invariant 0 <= i <= |bytes|
      invariant |binary| == i
      invariant forall k :: 0 <= k < i ==> binary[k] as int == bytes[k] as int
    {
      binary := binary + [bytes[i] as int as char];
      i := i + 1;
    }
    assert forall k :: 0 <= k < |bytes| ==> binary[k] == BinaryString(bytes)[k];
  }

  /** The binary string is valid input for `btoa` and stands for the bytes it was built from. */
  lemma BinaryStringBytes(bytes: seq<byte>)
    ensures Base64.IsBinary(BinaryString(bytes))
    ensures Base64.Latin1(BinaryString(bytes)) == bytes
  {
    var binary := BinaryString(bytes);
    assert Base64.IsBinary(binary);
    assert forall i :: 0 <= i < |bytes| ==> Base64.Latin1(binary)[i] == bytes[i];
  }

  /** The reply built from the provider's response. */
  function Classify(up: Upstream): (r: Response)
    ensures up.Delivered? ==> r == AudioContent(Base64.Encode(up.audio))
    ensures up.Rejected? ==> (r == FreeUserRestricted <==> Contains(up.text, FREE_USERS_NOT_ALLOWED))
    ensures up.Rejected? && !Contains(up.text, FREE_USERS_NOT_ALLOWED) ==> r == ServerError(Message(FAILURE_PREFIX + up.text))
    ensures up.Unreachable? ==> r == ServerError(EngineError)
  {
    match up
    case Delivered(audio) =>
      BinaryStringBytes(audio);
      (match Base64.Btoa(BinaryString(audio))
       case Some(encoded) => AudioContent(encoded)
       case None => ServerError(EngineError))
    case Rejected(text) =>
      if Contains(text, FREE_USERS_NOT_ALLOWED) then FreeUserRestricted
      else ServerError(Message(FAILURE_PREFIX + text))
    case Unreachable => ServerError(EngineError)
  }

  /** The handler: the provider's reply matters only when the checks let the call through. */
  function Handle(req: Request, env: Env, up: Upstream): (r: Response)
    ensures req.Preflight? ==> r == CorsOk
    ensures Decide(req, env).CallProvider? ==> r == Classify(up)
    ensures Decide(req, env).Reply? ==> r == Decide(req, env).response
    ensures r.AudioContent? ==> up.Delivered? && Base64.Decode(r.base64) == Some(up.audio)
    ensures r == FreeUserRestricted <==> Decide(req, env).CallProvider? && up.Rejected? && Contains(up.text, FREE_USERS_NOT_ALLOWED)
  {
    match Decide(req, env)
    case Reply(response) => response
    case CallProvider(_, _, _) =>
      if up.Delivered? then Base64.DecodeEncode(up.audio); Classify(up)
      else Classify(up)
  }

  /** Without a provider call, the reply does not depend on what the provider would have said. */
  lemma NoCallNoDependence(req: Request, env: Env, up1: Upstream, up2: Upstream)
    requires !(req.Invoke? && FieldsPresent(req.body) && KeyConfigured(env))
    ensures Handle(req, env, up1) == Handle(req, env, up2)
  {
  }

  /** A missing, empty or whitespace-only script is refused with status 500
      and "Script and voice ID are required", whatever the voice, the key
      and the provider. */
  lemma BlankScriptRejected(script: Field, voiceId: Field, env: Env, up: Upstream)
    requires script.Absent? || script.Null? || (script.Str? && AllWs(script.text))
    ensures Handle(Invoke(Json(script, voiceId)), env, up) == ServerError(Message(FIELDS_REQUIRED))
    ensures Status(Handle(Invoke(Json(script, voiceId)), env, up)) == 500
  {
  }

  /** The provider's 'free_users_not_allowed' failure becomes a 403 with code FREE_USER_RESTRICTED. */
  lemma FreeUserFailure(req: Request, env: Env, text: string)
    requires req.Invoke? && FieldsPresent(req.body) && KeyConfigured(env)
    requires Contains(text, FREE_USERS_NOT_ALLOWED)
    ensures Status(Handle(req, env, Rejected(text))) == 403
    ensures Code(Handle(req, env, Rejected(text))) == Some(FREE_USER_RESTRICTED)
  {
  }

  /** Any other provider failure becomes a 500 whose message quotes the provider's body. */
  lemma OtherProviderFailure(req: Request, env: Env, text: string)
    requires req.Invoke? && FieldsPresent(req.body) && KeyConfigured(env)
    requires !Contains(text, FREE_USERS_NOT_ALLOWED)
    ensures Handle(req, env, Rejected(text)) == ServerError(Message(FAILURE_PREFIX + text))
  {
  }

  /** A delivered audio is returned with status 200 as its base64 text. */
  lemma DeliveredAudio(req: Request, env: Env, audio: seq<byte>)
    requires req.Invoke? && FieldsPresent(req.body) && KeyConfigured(env)
    ensures Handle(req, env, Delivered(audio)) == AudioContent(Base64.Encode(audio))
    ensures Status(Handle(req, env, Delivered(audio))) == 200
  {
  }
}

=== FILE: base64.dfy ===
/** `btoa`, the platform call the generate-audio edge function uses to encode
    the audio bytes, modelled as the base64 encoding of section 4 of
    RFC 4648 (standard alphabet, `=` padding) applied to a binary string,
    together with a decoder that inverts it.

    The encoding works in two layers: bytes become a sequence of six-bit
    values (with 64 standing for the pad), and each value becomes one
    character. */
module Base64 {
  import opened Common

  const PAD: char := '='
  /** The six-bit-value stand-in for the `=` pad. */
  const PAD_VALUE: nat := 64

  /** The value of a base64 character (`=` included), if `c` is one. */
  function SymbolValue(c: char): (v: Option<nat>)
    ensures v.Some? ==> v.value <= PAD_VALUE
  {
    if 'A' <= c <= 'Z' then Some(c as int - 'A' as int)
    else if 'a' <= c <= 'z' then Some(c as int - 'a' as int + 26)
    else if '0' <= c <= '9' then Some(c as int - '0' as int + 52)
    else if c == '+' then Some(62)
    else if c == '/' then Some(63)
    else if c == PAD then Some(PAD_VALUE)
    else None
  }

  /** The character for a six-bit value, or the pad for `PAD_VALUE`. */
  function Symbol(k: nat): (c: char)
    requires k <= PAD_VALUE
    ensures SymbolValue(c) == Some(k)
  {
    if k < 26 then ('A' as int + k) as char
    else if k < 52 then ('a' as int + k - 26) as char
    else if k < 62 then ('0' as int + k - 52) as char
    else if k == 62 then '+'
    else if k == 63 then '/'
    else PAD
  }

  predicate IsSextets(d: seq<nat>)
  {
    forall i :: 0 <= i < |d| ==> d[i] <= PAD_VALUE
  }

  /** One character per value. */
  function Render(d: seq<nat>): (s: string)
    requires IsSextets(d)
    ensures |s| == |d|
  {
    if d == [] then [] else [Symbol(d[0])] + Render(d[1..])
  }

  /** The values of the characters of `s`; `None` if one is not base64. */
  function Symbols(s: string): (d: Option<seq<nat>>)
    ensures d.Some? ==> IsSextets(d.value)
  {
    if s == [] then Some([])
    else
      match SymbolValue(s[0])
      case None => None
      case Some(v) =>
        match Symbols(s[1..])
        case None => None
        case Some(rest) => Some([v] + rest)
  }

  lemma {:induction false} SymbolsRender(d: seq<nat>)
    requires IsSextets(d)
    ensures Symbols(Render(d)) == Some(d)
  {
    if d != [] {
      SymbolsRender(d[1..]);
      assert Render(d)[1..] == Render(d[1..]);
      assert [d[0]] + d[1..] == d;
    }
  }

  /** Groups of three bytes become four six-bit values; a final group of one
      or two bytes is padded to four. */
  function Sextets(b: seq<byte>): (d: seq<nat>)
    ensures IsSextets(d)
    ensures |d| == 4 * ((|b| + 2) / 3)
    decreases |b|
  {
    if |b| == 0 then []
    else
      var b0 := b[0] as nat;
      if |b| == 1 then
        [b0 / 4, b0 % 4 * 16, PAD_VALUE, PAD_VALUE]
      else
        var b1 := b[1] as nat;
        if |b| == 2 then
          [b0 / 4, b0 % 4 * 16 + b1 / 16, b1 % 16 * 4, PAD_VALUE]
        else
          var b2 := b[2] as nat;
          [b0 / 4, b0 % 4 * 16 + b1 / 16, b1 % 16 * 4 + b2 / 64, b2 % 64] + Sextets(b[3..])
  }

  function Byte0(v0: nat, v1: nat): byte
    requires v0 < 64 && v1 < 64
  {
    (v0 * 4 + v1 / 16) as byte
  }

  function Byte1(v1: nat, v2: nat): byte
    requires v1 < 64 && v2 < 64
  {
    (v1 % 16 * 16 + v2 / 4) as byte
  }

  function Byte2(v2: nat, v3: nat): byte
    requires v2 < 64 && v3 < 64
  {
    (v2 % 4 * 64 + v3) as byte
  }

  /** Bytes back from six-bit values; `None` when the values are not a
      padded encoding. */
  function FromSextets(d: seq<nat>): (r: Option<seq<byte>>)
    decreases |d|
  {
    if |d| == 0 then Some([])
    else if |d| < 4 || d[0] >= 64 || d[1] >= 64 then None
    else if |d| == 4 && d[2] == PAD_VALUE && d[3] == PAD_VALUE then
      Some([Byte0(d[0], d[1])])
    else if d[2] >= 64 then None
    else if |d| == 4 && d[3] == PAD_VALUE then
      Some([Byte0(d[0], d[1]), Byte1(d[1], d[2])])
    else if d[3] >= 64 then None
    else
      match FromSextets(d[4..])
      case None => None
      case Some(rest) => Some([Byte0(d[0], d[1]), Byte1(d[1], d[2]), Byte2(d[2], d[3])] + rest)
  }

  /** The six-bit values of one group give back its bytes. */
  lemma GroupRoundTrip(b0: nat, b1: nat, b2: nat)
    requires b0 < 256 && b1 < 256 && b2 < 256
    ensures Byte0(b0 / 4, b0 % 4 * 16 + b1 / 16) as nat == b0
    ensures Byte1(b0 % 4 * 16 + b1 / 16, b1 % 16 * 4 + b2 / 64) as nat == b1
    ensures Byte2(b1 % 16 * 4 + b2 / 64, b2 % 64) as nat == b2
  {
  }

  /** A final group of one byte decodes back. */
  lemma OneByteRoundTrip(x0: byte)
    ensures FromSextets(Sextets([x0])) == Some([x0])
  {
    var b0 := x0 as nat;
    assert Sextets([x0]) == [b0 / 4, b0 % 4 * 16, PAD_VALUE, PAD_VALUE];
    assert Byte0(b0 / 4, b0 % 4 * 16) as nat == b0;
  }

  /** A final group of two bytes decodes back. */
  lemma TwoBytesRoundTrip(x0: byte, x1: byte)
    ensures FromSextets(Sextets([x0, x1])) == Some([x0, x1])
  {
    var b0, b1 := x0 as nat, x1 as nat;
    assert Sextets([x0, x1]) == [b0 / 4, b0 % 4 * 16 + b1 / 16, b1 % 16 * 4, PAD_VALUE];
    assert Byte0(b0 / 4, b0 % 4 * 16 + b1 / 16) as nat == b0;
    assert Byte1(b0 % 4 * 16 + b1 / 16, b1 % 16 * 4) as nat == b1;
  }

  /** A leading group of three bytes decodes back, given that the rest does. */
  lemma FullGroupRoundTrip(x0: byte, x1: byte, x2: byte, t: seq<byte>)
    requires FromSextets(Sextets(t)) == Some(t)
    ensures FromSextets(Sextets([x0, x1, x2] + t)) == Some([x0, x1, x2] + t)
  {
    var b := [x0, x1, x2] + t;
    assert b[3..] == t;
    var d := Sextets(b);
    assert d[4..] == Sextets(t);
    GroupRoundTrip(x0 as nat, x1 as nat, x2 as nat);
  }

  lemma {:induction false} FromSextetsRoundTrip(b: seq<byte>)
    ensures FromSextets(Sextets(b)) == Some(b)
    decreases |b|
  {
    if |b| == 1 {
      assert b == [b[0]];
      OneByteRoundTrip(b[0]);
    } else if |b| == 2 {
      assert b == [b[0], b[1]];
      TwoBytesRoundTrip(b[0], b[1]);
    } else if |b| > 2 {
      FromSextetsRoundTrip(b[3..]);
      assert b == [b[0], b[1], b[2]] + b[3..];
      FullGroupRoundTrip(b[0], b[1], b[2], b[3..]);
    }
  }

  /** The base64 text of a byte sequence. */
  function Encode(b: seq<byte>): (s: string)
    ensures |s| == 4 * ((|b| + 2) / 3)
  {
    Render(Sextets(b))
  }

  /** Decoding of padded base64; `None` for text that is not base64. */
  function Decode(s: string): Option<seq<byte>>
  {
    match Symbols(s)
    case None => None
    case Some(d) => FromSextets(d)
  }

  /** Decoding an encoding gives back the bytes. */
  lemma DecodeEncode(b: seq<byte>)
    ensures Decode(Encode(b)) == Some(b)
  {
    SymbolsRender(Sextets(b));
    FromSextetsRoundTrip(b);
  }

  /** A binary string: every character is at most U+00FF. */
  predicate IsBinary(s: string)
  {
    forall i :: 0 <= i < |s| ==> s[i] as int < 256
  }

  /** The bytes a binary string stands for. */
  function Latin1(s: string): (b: seq<byte>)
    requires IsBinary(s)
    ensures |b| == |s|
    ensures forall i :: 0 <= i < |s| ==> b[i] as int == s[i] as int
  {
    if s == [] then [] else [s[0] as int as byte] + Latin1(s[1..])
  }

  /** `btoa(s)`: the encoding of the bytes of a binary string; `None` stands
      for the `InvalidCharacterError` thrown for a character above U+00FF. */
  function Btoa(s: string): (r: Option<string>)
    ensures r.Some? <==> IsBinary(s)
    ensures r.Some? ==> Decode(r.value) == Some(Latin1(s))
  {
    if IsBinary(s) then
      DecodeEncode(Latin1(s));
      Some(Encode(Latin1(s)))
    else
      None
  }
}

=== FILE: common.dfy ===
/** Shared vocabulary of the model: bytes, optional values, JSON body fields
    as the edge functions see them after destructuring, and error messages. */
module Common {

  /** One octet of a `Uint8Array`. */
  newtype byte = x: int | 0 <= x < 256

  datatype Option<+T> = None | Some(value: T)

  /** A field read out of a parsed JSON request body (`const { script } = await req.json()`).
      `Absent` is `undefined`; `Other` stands for every non-string JSON value
      (boolean, number, array, object), with its JavaScript truthiness. */
  datatype Field = Absent | Null | Str(text: string) | Other(truthy: bool)

  /** JavaScript truthiness of a field, as used by `!script`. */
  predicate Truthy(f: Field)
  {
    match f
    case Absent => false
    case Null => false
    case Str(s) => s != []
    case Other(t) => t
  }

  /** The message of an error caught by an edge function. The text of the
      errors thrown by the JavaScript engine itself (a `SyntaxError` from
      `req.json()`, a `TypeError` from calling `trim` on a non-string) is
      not part of the program and is kept opaque. */
  datatype ErrorMessage = Message(text: string) | EngineError
}

=== FILE: duration_service.dfy ===
/** The request handler of the check-script-duration edge function: a CORS
    preflight short-circuit, the "Script is required" guard, and the
    estimate of a present script; every thrown error becomes a 400 reply. */
module DurationService {
  import opened Common
  import opened Text
  import opened Estimate

  /** The request body: JSON that `req.json()` rejects, or an object whose
      `script` property has been read. */
  datatype Body = Unparsable | Json(script: Field)

  /** An OPTIONS preflight, or any other method carrying a body. */
  datatype Request = Preflight | Invoke(body: Body)

  datatype Response =
    | CorsOk                        // null body, CORS headers, status 200
    | Duration(tenths: nat)         // `{ duration }`, status 200
    | BadRequest(error: ErrorMessage)  // `{ error }`, status 400

  const SCRIPT_REQUIRED: string := "Script is required"

  function Status(r: Response): int
  {
    match r
    case CorsOk => 200
    case Duration(_) => 200
    case BadRequest(_) => 400
  }

  /** The handler. A falsy `script` (absent, null, "", false, 0) is rejected
      before estimating; a truthy non-string makes `script.trim()` throw; any
      string, whitespace-only included, is estimated. */
  function Handle(req: Request): (resp: Response)
    ensures req.Preflight? <==> resp.CorsOk?
    ensures resp.Duration? <==> req.Invoke? && req.body.Json? && req.body.script.Str? && req.body.script.text != []
    ensures resp.Duration? ==> resp.tenths == DurationTenths(RunCount(req.body.script.text))
    ensures resp == BadRequest(Message(SCRIPT_REQUIRED)) <==> req.Invoke? && req.body.Json? && !Truthy(req.body.script)
    ensures resp == BadRequest(EngineError) <==> req.Invoke? && (req.body.Unparsable? || (Truthy(req.body.script) && !req.body.script.Str?))
  {
    match req
    case Preflight => CorsOk
    case Invoke(Unparsable) => BadRequest(EngineError)
    case Invoke(Json(script)) =>
      if !Truthy(script) then BadRequest(Message(SCRIPT_REQUIRED))
      else if !script.Str? then BadRequest(EngineError)
      else Duration(EstimateTenths(script.text))
  }

  /** A whitespace-only script passes the guard and is estimated at zero seconds. */
  lemma WhitespaceScriptAccepted(script: string)
    requires script != [] && AllWs(script)
    ensures Handle(Invoke(Json(Str(script)))) == Duration(0)
  {
    EstimateZero(script);
  }
}

=== FILE: estimate.dfy ===
/** `estimateScriptDuration` of the check-script-duration edge function:
    the word count divided by 150 words per minute, stretched by a 15 %
    pause buffer, converted to seconds and rounded to one decimal.

    The floating-point result is modelled exactly as an integer number of
    tenths of a second: the unrounded value is 4.6 tenths per word, and
    `Math.round` picks the nearest integer (never a tie, see DurationTenths). */
module Estimate {
  import opened Text

  const WORDS_PER_MINUTE: nat := 150
  const SECONDS_PER_MINUTE: nat := 60
  /** The "15% buffer for pauses and natural speech variations". */
  const PAUSE_BUFFER: real := 1.15

  /** The value `durationInMinutes * SECONDS_PER_MINUTE * 10` handed to
      `Math.round`, computed on exact rationals. */
  function ExactTenths(words: nat): real
  {
    (words as real / WORDS_PER_MINUTE as real) * PAUSE_BUFFER * SECONDS_PER_MINUTE as real * 10.0
  }

  /** `Math.round(ExactTenths(words))`, in tenths of a second. The result is
      the integer nearest to the exact value, and the exact value always lies
      within 0.4 of it, so the rounding never meets a half-way tie. */
  function DurationTenths(words: nat): (tenths: nat)
    ensures tenths as real - 0.5 <= ExactTenths(words) < tenths as real + 0.5
    ensures tenths as real - 0.4 <= ExactTenths(words) <= tenths as real + 0.4
  {
    ExactTenthsValue(words);
    RoundEven(23 * words);
    (46 * words + 5) / 10
  }

  /** The exact value is 4.6 tenths per word. */
  lemma ExactTenthsValue(words: nat)
    ensures ExactTenths(words) == (46 * words) as real / 10.0
  {
    var x := words as real;
    assert ExactTenths(words) == (x / 150.0) * 1.15 * 60.0 * 10.0;
  }

  /** An even number of tenths is within 0.4 of the whole number nearest to it. */
  lemma RoundEven(half: nat)
    ensures var q := 2 * half;
      ((q + 5) / 10) as real - 0.4 <= q as real / 10.0 <= ((q + 5) / 10) as real + 0.4
  {
    var q := 2 * half;
    var t, r := (q + 5) / 10, (q + 5) % 10;
    assert q + 5 == 10 * t + r;
    assert r % 2 == 1;
    assert 10 * t - 4 <= q <= 10 * t + 4;
  }

  /** The estimate for a script, in tenths of a second. */
  function EstimateTenths(script: string): (tenths: nat)
    ensures tenths == DurationTenths(RunCount(script))
  {
    DurationTenths(WordCount(script))
  }

  /** Each additional word adds 0.4 or 0.5 seconds. */
  lemma DurationPerWord(words: nat)
    ensures DurationTenths(words) + 4 <= DurationTenths(words + 1) <= DurationTenths(words) + 5
  {
  }

  /** The estimate is non-decreasing in the word count (strictly increasing, in fact). */
  lemma {:induction false} DurationMonotone(w1: nat, w2: nat)
    requires w1 <= w2
    ensures DurationTenths(w1) <= DurationTenths(w2)
    ensures w1 < w2 ==> DurationTenths(w1) < DurationTenths(w2)
    decreases w2 - w1
  {
    if w1 < w2 {
      DurationPerWord(w1);
      DurationMonotone(w1 + 1, w2);
    }
  }

  /** Only empty and whitespace-only scripts are estimated at zero seconds. */
  lemma {:induction false} EstimateZero(script: string)
    ensures EstimateTenths(script) == 0 <==> AllWs(script)
  {
    WordCountZero(script);
    if !AllWs(script) {
      DurationMonotone(1, WordCount(script));
    }
  }

  /** Whitespace added around a script does not change its estimate. */
  lemma {:induction false} EstimateIgnoresPadding(lead: string, script: string, trail: string)
    requires AllWs(lead) && AllWs(trail)
    ensures EstimateTenths(lead + script + trail) == EstimateTenths(script)
  {
    WordCountIgnoresPadding(lead, script, trail);
  }

  /** The width of the whitespace gap between two parts does not change the estimate. */
  lemma {:induction false} EstimateGapWidth(a: string, gap1: string, gap2: string, b: string)
    requires gap1 != [] && AllWs(gap1)
    requires gap2 != [] && AllWs(gap2)
    ensures EstimateTenths(a + gap1 + b) == EstimateTenths(a + gap2 + b)
  {
    WordCountGapWidth(a, gap1, gap2, b);
  }

  /** Appending more text after a whitespace separator never shortens the estimate. */
  lemma {:induction false} EstimateGrowsWithText(a: string, sep: string, b: string)
    requires sep != [] && AllWs(sep)
    ensures EstimateTenths(a) <= EstimateTenths(a + sep + b)
  {
    WordCountJoin(a, sep, b);
    DurationMonotone(WordCount(a), WordCount(a + sep + b));
  }

  /** A script read twice takes twice as long, up to the rounding of one tenth. */
  lemma {:induction false} EstimateDoubles(script: string)
    ensures 2 * EstimateTenths(script) - 1 <= EstimateTenths(script + " " + script) <= 2 * EstimateTenths(script) + 1
  {
    WordCountJoin(script, " ", script);
  }
}

=== FILE: policy.dfy ===
/** The duration-fit policy of the audio generator: an estimate (tenths of a
    second, as returned by the check-script-duration edge function) is
    compared with the ad length chosen in the script form. */
module DurationPolicy {
  import opened Common
  import opened Estimate

  /** The ad lengths offered by the duration selector, in seconds. */
  type Target = t: int | t == 15 || t == 30 || t == 45 || t == 60 witness 30

  datatype Verdict = Fits | TooLong

  /** The `duration` number sent by the edge function: tenths / 10. */
  function Seconds(tenths: nat): real
  {
    tenths as real / 10.0
  }

  /** `estimatedDuration > parseInt(duration)`: too long exactly when the
      estimate in seconds exceeds the target; equality fits. */
  function Evaluate(tenths: nat, target: Target): (v: Verdict)
    ensures v == TooLong <==> Seconds(tenths) > target as real
    ensures Seconds(tenths) == target as real ==> v == Fits
  {
    if tenths > 10 * target then TooLong else Fits
  }

  /** `Math.round(estimatedDuration)`, the whole seconds shown to the user. */
  function RoundedSeconds(tenths: nat): (r: nat)
    ensures r as real - 0.5 <= Seconds(tenths) < r as real + 0.5
  {
    (tenths + 5) / 10
  }

  /** The alert under the voice selector. */
  datatype Alert =
    | TooLongAlert(estimateSeconds: nat)
    | FitsAlert(estimateSeconds: nat, limit: Target)

  /** No alert without an estimate; otherwise the too-long warning when the
      estimate exceeds the target and the fits confirmation when it does not,
      both quoting the rounded estimate. */
  function DurationAlert(estimate: Option<nat>, target: Target): (a: Option<Alert>)
    ensures a.None? <==> estimate.None?
    ensures a.Some? ==> (a.value.TooLongAlert? <==> Seconds(estimate.value) > target as real)
    ensures a.Some? ==> a.value.estimateSeconds == RoundedSeconds(estimate.value)
    ensures a.Some? && a.value.FitsAlert? ==> a.value.limit == target
  {
    match estimate
    case None => None
    case Some(t) =>
      if Evaluate(t, target) == TooLong then Some(TooLongAlert(RoundedSeconds(t)))
      else Some(FitsAlert(RoundedSeconds(t), target))
  }

  /** The early exit of the generate handler: `estimatedDuration && estimatedDuration > selectedDurationSeconds`.
      The truthiness test agrees with the verdict: a missing estimate never
      blocks, and an estimate blocks exactly when it is too long. */
  function HandlerBlocks(estimate: Option<nat>, target: Target): (b: bool)
    ensures b <==> estimate.Some? && Evaluate(estimate.value, target) == TooLong
  {
    estimate.Some? && estimate.value != 0 && Seconds(estimate.value) > target as real
  }

  /** The largest number of words whose estimate fits the target:
      32, 65, 97 and 130 words for 15, 30, 45 and 60 seconds. */
  function MaxWords(target: Target): (words: nat)
    ensures DurationTenths(words) <= 10 * target < DurationTenths(words + 1)
  {
    if target == 15 then 32 else if target == 30 then 65 else if target == 45 then 97 else 130
  }

  /** A script fits the target exactly when it has at most `MaxWords(target)` words. */
  lemma FitsIffFewWords(words: nat, target: Target)
    ensures Evaluate(DurationTenths(words), target) == Fits <==> words <= MaxWords(target)
  {
    if words <= MaxWords(target) {
      DurationMonotone(words, MaxWords(target));
    } else {
      DurationMonotone(MaxWords(target) + 1, words);
    }
  }

  /** The inclusive boundary is never reached by a script estimate: no word
      count is estimated at exactly 15, 30, 45 or 60 seconds. */
  lemma NoEstimateOnTarget(words: nat, target: Target)
    ensures DurationTenths(words) != 10 * target
  {
    if words <= MaxWords(target) {
      DurationMonotone(words, MaxWords(target));
    } else {
      DurationMonotone(MaxWords(target) + 1, words);
    }
  }

  /** An estimate shown as too long can quote the target itself: a script
      of 66 words is estimated at 30.4 s, over a 30 s target, and the alert
      rounds it to "30 seconds". */
  lemma TooLongMayQuoteTarget()
    ensures DurationTenths(66) == 304
    ensures DurationAlert(Some(DurationTenths(66)), 30) == Some(TooLongAlert(30))
  {
  }
}

=== FILE: text.dfy ===
/** String operations the edge functions rely on: ECMAScript whitespace,
    `trim`, `split(/\s+/)`, `filter(word => word.length > 0)` and `includes`,
    together with an independent definition of "number of words" (maximal
    runs of non-whitespace characters) and the lemmas that connect the two. */
module Text {

  /** The characters matched by `\s` and removed by `String.prototype.trim`:
      ECMAScript WhiteSpace (TAB, VT, FF, SPACE, NBSP, ZWNBSP, category Zs)
      and LineTerminator (LF, CR, LS, PS). */
  predicate IsWs(c: char)
  {
    || c == '\t' || c == '\n' || c == '\U{000B}' || c == '\U{000C}' || c == '\r'
    || c == ' ' || c == '\U{00A0}' || c == '\U{1680}'
    || ('\U{2000}' <= c <= '\U{200A}')
    || c == '\U{2028}' || c == '\U{2029}' || c == '\U{202F}' || c == '\U{205F}'
    || c == '\U{3000}' || c == '\U{FEFF}'
  }

  predicate AllWs(s: string)
  {
    forall i :: 0 <= i < |s| ==> IsWs(s[i])
  }

  predicate NoWs(s: string)
  {
    forall i :: 0 <= i < |s| ==> !IsWs(s[i])
  }

  /** The first position at or after `i` that does not hold whitespace, or `|s|`. */
  function SkipWs(s: string, i: nat): (j: nat)
    requires i <= |s|
    ensures i <= j <= |s|
    ensures forall k :: i <= k < j ==> IsWs(s[k])
    ensures j == |s| || !IsWs(s[j])
    decreases |s| - i
  {
    if i < |s| && IsWs(s[i]) then SkipWs(s, i + 1) else i
  }

  /** The last position at or before `j` not preceded by whitespace, or `0`. */
  function BackWs(s: string, j: nat): (i: nat)
    requires j <= |s|
    ensures i <= j
    ensures forall k :: i <= k < j ==> IsWs(s[k])
    ensures i == 0 || !IsWs(s[i - 1])
  {
    if j > 0 && IsWs(s[j - 1]) then BackWs(s, j - 1) else j
  }

  /** `s.trimStart()`: the suffix left after the maximal whitespace prefix. */
  function TrimStart(s: string): (r: string)
    ensures |r| <= |s| && r == s[|s| - |r|..]
    ensures AllWs(s[..|s| - |r|])
    ensures r == [] || !IsWs(r[0])
  {
    s[SkipWs(s, 0)..]
  }

  /** `s.trimEnd()`: the prefix left after the maximal whitespace suffix. */
  function TrimEnd(s: string): (r: string)
    ensures |r| <= |s| && r == s[..|r|]
    ensures AllWs(s[|r|..])
    ensures r == [] || !IsWs(r[|r| - 1])
  {
    s[..BackWs(s, |s|)]
  }

  /** `s.trim()`: the part of `s` between a whitespace prefix and a
      whitespace suffix, beginning and ending with a non-whitespace character. */
  function Trim(s: string): (r: string)
    ensures |r| <= |s|
    ensures var i := |s| - |TrimStart(s)|;
      && i + |r| <= |s| && r == s[i..i + |r|]
      && AllWs(s[..i]) && AllWs(s[i + |r|..])
    ensures r == [] || (!IsWs(r[0]) && !IsWs(r[|r| - 1]))
    ensures r == [] <==> AllWs(s)
  {
    InnerSlice(s, TrimStart(s), TrimEnd(TrimStart(s)));
    TrimEnd(TrimStart(s))
  }

  /** A prefix `r` of a suffix `t` of `s` is a slice of `s`. When `t` is what
      remains after a whitespace prefix and `r` what remains of `t` before a
      whitespace suffix, `r` is empty exactly when `s` is all whitespace, and
      otherwise begins and ends with non-whitespace. */
  lemma InnerSlice(s: string, t: string, r: string)
    requires |t| <= |s| && t == s[|s| - |t|..] && AllWs(s[..|s| - |t|])
    requires t == [] || !IsWs(t[0])
    requires |r| <= |t| && r == t[..|r|] && AllWs(t[|r|..])
    requires r == [] || !IsWs(r[|r| - 1])
    ensures |s| - |t| + |r| <= |s| && r == s[|s| - |t|..|s| - |t| + |r|]
    ensures AllWs(s[|s| - |t| + |r|..])
    ensures r == [] || (!IsWs(r[0]) && !IsWs(r[|r| - 1]))
    ensures r == [] <==> AllWs(s)
  {
    var i := |s| - |t|;
    assert s[i + |r|..] == t[|r|..];
    assert s[i..i + |r|] == t[..|r|];
    if r == [] {
      assert s == s[..i] + t;
    } else {
      assert r[0] == t[0];
    }
  }

  /** The first position at or after `i` that holds whitespace, or `|s|`. */
  function SkipWord(s: string, i: nat): (j: nat)
    requires i <= |s|
    ensures i <= j <= |s|
    ensures forall k :: i <= k < j ==> !IsWs(s[k])
    ensures j == |s| || IsWs(s[j])
    decreases |s| - i
  {
    if i < |s| && !IsWs(s[i]) then SkipWord(s, i + 1) else i
  }

  /** The longest prefix of `s` without whitespace. */
  function LeadingWord(s: string): (w: string)
    ensures |w| <= |s| && w == s[..|w|] && NoWs(w)
    ensures |w| == |s| || IsWs(s[|w|])
  {
    s[..SkipWord(s, 0)]
  }

  /** `s.split(/\s+/)`: the pieces between maximal runs of whitespace. A
      leading or trailing run contributes an empty piece, and the empty
      string splits into one empty piece. */
  function SplitWs(s: string): (parts: seq<string>)
    ensures |parts| >= 1
    ensures forall k :: 0 <= k < |parts| ==> NoWs(parts[k])
    decreases |s|
  {
    var w := LeadingWord(s);
    var rest := s[|w|..];
    if rest == [] then [w]
    else
      TrimStartShrinks(rest);
      [w] + SplitWs(TrimStart(rest))
  }

  /** `trimStart` shortens a text that begins with whitespace. */
  lemma TrimStartShrinks(s: string)
    requires s != [] && IsWs(s[0])
    ensures |TrimStart(s)| < |s|
  {
  }

  /** `parts.filter(word => word.length > 0)`. */
  function NonEmpty(parts: seq<string>): (words: seq<string>)
    ensures |words| <= |parts|
    ensures forall x :: x in words <==> x in parts && x != []
    ensures multiset(words) == multiset(parts)[[] := 0]
  {
    if parts == [] then []
    else
      assert parts == [parts[0]] + parts[1..];
      (if parts[0] == [] then [] else [parts[0]]) + NonEmpty(parts[1..])
  }

  /** The words of a script: `script.trim().split(/\s+/).filter(word => word.length > 0)`. */
  function Words(script: string): (words: seq<string>)
    ensures forall k :: 0 <= k < |words| ==> words[k] != [] && NoWs(words[k])
  {
    var words := NonEmpty(SplitWs(Trim(script)));
    NonEmptyWords(SplitWs(Trim(script)), words);
    words
  }

  /** Filtering pieces without whitespace leaves non-empty words without whitespace. */
  lemma NonEmptyWords(parts: seq<string>, words: seq<string>)
    requires forall k :: 0 <= k < |parts| ==> NoWs(parts[k])
    requires words == NonEmpty(parts)
    ensures forall k :: 0 <= k < |words| ==> words[k] != [] && NoWs(words[k])
  {
    assert forall k :: 0 <= k < |words| ==> words[k] in parts;
  }

  /** `.length` of the filtered pieces: the number of maximal runs of
      non-whitespace characters, an independent count over the text itself. */
  function WordCount(script: string): (n: nat)
    ensures n == RunCount(script)
  {
    SplitCountsRuns(Trim(script));
    TrimKeepsRuns(script);
    |Words(script)|
  }

  /** Position `i` of `s` begins a maximal run of non-whitespace characters. */
  predicate StartsRun(s: string, i: int)
    requires 0 <= i < |s|
  {
    !IsWs(s[i]) && (i == 0 || IsWs(s[i - 1]))
  }

  /** Reference definition of the number of words: how many maximal runs of
      non-whitespace characters `s` holds, counted by their first positions. */
  function RunCount(s: string): nat
  {
    if s == [] then 0
    else RunCount(s[..|s| - 1]) + (if StartsRun(s, |s| - 1) then 1 else 0)
  }

  /** Gluing two texts at a whitespace boundary adds their runs. */
  lemma {:induction false} RunCountAppend(a: string, b: string)
    requires a == [] || b == [] || IsWs(a[|a| - 1]) || IsWs(b[0])
    ensures RunCount(a + b) == RunCount(a) + RunCount(b)
    decreases |b|
  {
    if b == [] {
      assert a + b == a;
    } else {
      var b' := b[..|b| - 1];
      assert (a + b)[..|a + b| - 1] == a + b';
      if b' == [] {
        assert a + b' == a;
      } else {
        assert b'[0] == b[0];
        RunCountAppend(a, b');
        assert (a + b)[|a + b| - 2] == b[|b| - 2];
      }
    }
  }

  /** A text has no runs exactly when it is all whitespace. */
  lemma {:induction false} RunCountZero(s: string)
    ensures RunCount(s) == 0 <==> AllWs(s)
  {
    if s != [] {
      var s' := s[..|s| - 1];
      RunCountZero(s');
      assert AllWs(s) <==> AllWs(s') && IsWs(s[|s| - 1]);
    }
  }

  /** A non-empty text without whitespace is exactly one run. */
  lemma {:induction false} RunCountWord(w: string)
    requires w != [] && NoWs(w)
    ensures RunCount(w) == 1
  {
    var w' := w[..|w| - 1];
    if w' == [] {
      assert RunCount(w') == 0;
    } else {
      RunCountWord(w');
    }
  }

  /** Filtering a piece followed by more pieces. */
  lemma NonEmptyCons(w: string, more: seq<string>)
    ensures |NonEmpty([w] + more)| == (if w == [] then 0 else 1) + |NonEmpty(more)|
  {
    assert ([w] + more)[1..] == more;
  }

  /** A word, a whitespace gap and a text: the word adds one run when non-empty. */
  lemma RunCountWordGap(w: string, gap: string, t: string)
    requires NoWs(w) && gap != [] && AllWs(gap)
    ensures RunCount(w + (gap + t)) == (if w == [] then 0 else 1) + RunCount(t)
  {
    if w != [] {
      RunCountWord(w);
    }
    RunCountZero(gap);
    RunCountAppend(gap, t);
    assert (gap + t)[0] == gap[0];
    RunCountAppend(w, gap + t);
  }

  /** A text is its prefix followed by the rest. */
  lemma CutAt(s: string, k: int)
    requires 0 <= k <= |s|
    ensures s == s[..k] + s[k..]
  {
  }

  /** One step of `split(/\s+/)`: the leading word, then the pieces of the
      text after the gap that follows it. */
  lemma SplitWsStep(s: string)
    ensures var w := LeadingWord(s);
      var rest := s[|w|..];
      && s == w + rest
      && (rest == [] ==> SplitWs(s) == [w])
      && (rest != [] ==> SplitWs(s) == [w] + SplitWs(TrimStart(rest)))
  {
    CutAt(s, |LeadingWord(s)|);
  }

  /** A text that goes on after its leading word: the word, the gap, and the text after the gap. */
  lemma {:induction false} SplitWsGap(s: string)
    requires s[|LeadingWord(s)|..] != []
    ensures var w := LeadingWord(s);
      var rest := s[|w|..];
      var t := TrimStart(rest);
      var gap := rest[..|rest| - |t|];
      && s == w + (gap + t) && SplitWs(s) == [w] + SplitWs(t) && |t| < |s|
      && NoWs(w) && gap != [] && AllWs(gap)
  {
    SplitWsStep(s);
    var rest := s[|LeadingWord(s)|..];
    CutAt(rest, |rest| - |TrimStart(rest)|);
  }

  /** The last piece of a split counts as many words as it holds runs. */
  lemma SplitCountsLastPiece(w: string)
    requires NoWs(w)
    ensures |NonEmpty([w])| == RunCount(w)
  {
    NonEmptyCons(w, []);
    assert [w] + [] == [w];
    if w != [] {
      RunCountWord(w);
    }
  }

  /** A piece before a gap adds one word exactly when it adds one run. */
  lemma {:induction false} SplitCountsPiece(w: string, gap: string, t: string, parts: seq<string>)
    requires NoWs(w) && gap != [] && AllWs(gap)
    requires |NonEmpty(parts)| == RunCount(t)
    ensures |NonEmpty([w] + parts)| == RunCount(w + (gap + t))
  {
    NonEmptyCons(w, parts);
    RunCountWordGap(w, gap, t);
  }

  /** Counting the non-empty pieces of `split(/\s+/)` counts the runs. */
  lemma {:induction false} SplitCountsRuns(s: string)
    ensures |NonEmpty(SplitWs(s))| == RunCount(s)
    decreases |s|
  {
    var w := LeadingWord(s);
    var rest := s[|w|..];
    if rest == [] {
      assert s == w && SplitWs(s) == [w] by {
        SplitWsStep(s);
      }
      SplitCountsLastPiece(w);
    } else {
      var t := TrimStart(rest);
      var gap := rest[..|rest| - |t|];
      SplitWsGap(s);
      SplitCountsRuns(t);
      SplitCountsPiece(w, gap, t, SplitWs(t));
    }
  }

  /** Removing a whitespace prefix never changes the runs. */
  lemma {:induction false} TrimStartKeepsRuns(s: string)
    ensures RunCount(TrimStart(s)) == RunCount(s)
  {
    var t := TrimStart(s);
    var lead := s[..|s| - |t|];
    assert s == lead + t;
    RunCountZero(lead);
    RunCountAppend(lead, t);
  }

  /** Removing a whitespace suffix never changes the runs. */
  lemma {:induction false} TrimEndKeepsRuns(s: string)
    ensures RunCount(TrimEnd(s)) == RunCount(s)
  {
    var r := TrimEnd(s);
    var trail := s[|r|..];
    assert s == r + trail;
    RunCountZero(trail);
    RunCountAppend(r, trail);
  }

  /** Trimming never changes the runs. */
  lemma {:induction false} TrimKeepsRuns(s: string)
    ensures RunCount(Trim(s)) == RunCount(s)
  {
    TrimStartKeepsRuns(s);
    TrimEndKeepsRuns(TrimStart(s));
  }

  /** Empty and whitespace-only texts, and only those, have no words. */
  lemma {:induction false} WordCountZero(script: string)
    ensures WordCount(script) == 0 <==> AllWs(script)
  {
    RunCountZero(script);
  }

  /** Two texts joined by a non-empty whitespace separator: the runs add up. */
  lemma {:induction false} RunCountJoin(a: string, sep: string, b: string)
    requires sep != [] && AllWs(sep)
    ensures RunCount(a + sep + b) == RunCount(a) + RunCount(b)
  {
    var x := a + sep;
    RunCountZero(sep);
    RunCountAppend(a, sep);
    assert x[|x| - 1] == sep[|sep| - 1];
    RunCountAppend(x, b);
  }

  /** Whitespace around a text adds no runs. */
  lemma {:induction false} RunCountPadding(lead: string, s: string, trail: string)
    requires AllWs(lead) && AllWs(trail)
    ensures RunCount(lead + s + trail) == RunCount(s)
  {
    var x := lead + s;
    RunCountZero(lead);
    RunCountZero(trail);
    RunCountAppend(lead, s);
    RunCountAppend(x, trail);
  }

  /** Leading and trailing whitespace do not change the word count. */
  lemma {:induction false} WordCountIgnoresPadding(lead: string, script: string, trail: string)
    requires AllWs(lead) && AllWs(trail)
    ensures WordCount(lead + script + trail) == WordCount(script)
  {
    RunCountPadding(lead, script, trail);
  }

  /** Two texts joined by a non-empty whitespace separator have the sum of their word counts. */
  lemma {:induction false} WordCountJoin(a: string, sep: string, b: string)
    requires sep != [] && AllWs(sep)
    ensures WordCount(a + sep + b) == WordCount(a) + WordCount(b)
  {
    RunCountJoin(a, sep, b);
  }

  /** Widening or narrowing the whitespace between two texts does not change the word count. */
  lemma {:induction false} WordCountGapWidth(a: string, gap1: string, gap2: string, b: string)
    requires gap1 != [] && AllWs(gap1)
    requires gap2 != [] && AllWs(gap2)
    ensures WordCount(a + gap1 + b) == WordCount(a + gap2 + b)
  {
    WordCountJoin(a, gap1, b);
    WordCountJoin(a, gap2, b);
  }

  /** `pattern` occurs in `s` starting at position `i`. */
  predicate OccursAt(s: string, pattern: string, i: int)
  {
    0 <= i <= |s| - |pattern| && s[i..i + |pattern|] == pattern
  }

  /** `s.includes(pattern)`: true exactly when `pattern` occurs at some position of `s`. */
  function Contains(s: string, pattern: string): (r: bool)
    ensures r <==> exists i :: OccursAt(s, pattern, i)
    decreases |s|
  {
    if |s| < |pattern| then
      assert forall i :: !OccursAt(s, pattern, i);
      false
    else if s[..|pattern|] == pattern then
      assert OccursAt(s, pattern, 0);
      true
    else
      OccursPastFirst(s, pattern);
      Contains(s[1..], pattern)
  }

  /** When `pattern` is not a prefix of `s`, it occurs in `s` exactly when it occurs in `s[1..]`. */
  lemma OccursPastFirst(s: string, pattern: string)
    requires |pattern| <= |s| && s[..|pattern|] != pattern
    ensures (exists i :: OccursAt(s, pattern, i)) <==> exists j :: OccursAt(s[1..], pattern, j)
  {
    if exists i :: OccursAt(s, pattern, i) {
      var i :| OccursAt(s, pattern, i);
      assert i != 0;
      assert s[1..][i - 1..i - 1 + |pattern|] == s[i..i + |pattern|];
      assert OccursAt(s[1..], pattern, i - 1);
    }
    if exists j :: OccursAt(s[1..], pattern, j) {
      var j :| OccursAt(s[1..], pattern, j);
      assert s[j + 1..j + 1 + |pattern|] == s[1..][j..j + |pattern|];
      assert OccursAt(s, pattern, j + 1);
    }
  }
}
